=== FILE: README.md ===
# Graceful restart demo: the hand-off protocol

This project models the sequential core of a Go demo that restarts an HTTP
service without dropping connections. On SIGHUP the running process spawns a
successor. The successor inherits the listening socket as descriptor 3, is
started with a `-continue` marker, and rebuilds the listener from that
descriptor. It then sends SIGTSTP to its parent. On SIGTSTP the signal
handler closes the listener and calls for exit with status 1. The model
takes that exit as the end of the process. The last two "Left out" entries
say where the running program can behave differently.

Operating-system calls become abstract inputs. Each of `cmd.Start`,
`listener.Close`, `net.Listen` and `net.FileListener` is an `Outcome`
(`Succeeded` or `Failed`), supplied with the signal whose handler makes the
call or with startup. Effects are appended to a trace of `Event`s:

- binding a fresh socket;
- opening the inherited descriptor;
- signalling the parent;
- spawning;
- closing;
- exiting.

Modules:

- `Seqs` (seqs.dfy): counting occurrences, and the longest prefix before a stop element.
- `Effects` (effects.dfy): signal numbers (Linux x86-64 values) and the handler's dispatch; outcomes; listener handles; the successor description; trace events.
- `SuccessorArgs` (args.dfy): the successor's argument list. It includes a loop method that mirrors the source loop with `break`, and the generation chain.
- `Restart` (restart.dfy): the fork-once flag, as one atomic check-and-set step.
- `Listener` (listener.dfy): the role-dependent listener acquisition.
- `Lifecycle` (lifecycle.dfy): startup, the signal handler step, the handler loop over a delivery trace, shutdown, and the end-to-end hand-off.

## Model

| member | source | states |
|---|---|---|
| Effects.Action | main.go:98-123 | SIGHUP and only SIGHUP restarts; SIGTSTP and only SIGTSTP terminates; SIGUSR1, SIGUSR2, SIGINT and SIGTERM have cases of their own that only log; every other signal falls to the default |
| SuccessorArgs.Rebuild | main.go:172-182 | the successor's arguments end with "-continue" and hold it exactly once; the rest is a marker-free prefix of the arguments after the program path that stops at their end or at the first marker |
| SuccessorArgs.BuildSuccessorArgs | main.go:172-182 | the copy loop with `break` keeps the program path and yields exactly the reference argument list |
| SuccessorArgs.RebuildKeepsLongestPrefix | main.go:174-181 | no marker-free prefix of the original arguments is lost: every one is a prefix of what is kept |
| SuccessorArgs.RebuildDropsAfterMarker | main.go:175-178 | an argument at or after the first marker never reaches the successor |
| SuccessorArgs.RebuildIdempotent | main.go:172-182 | rebuilding the successor's own argument vector yields the same arguments again |
| SuccessorArgs.GenerationStable | main.go:172-185 | with one restart defined as running the same program path on the parent's vector rebuilt (`exec.Command(path, args...)`): from the first restart on, every generation of the chain runs with the same argument vector: the original program path and the first successor's arguments |
| SuccessorArgs.GenerationMarkerOnce | main.go:172-185 | over any number of restarts the argument vector keeps a constant length and carries the marker exactly once |
| Restart.Fork | main.go:155-196 | the flag is set after every call; a call on a set flag returns the already-forked error and spawns nothing; otherwise exactly one spawn is attempted, with the same program path, the rebuilt arguments and the listener as the only extra file, and the error is empty exactly when the start succeeded |
| Restart.ForkAll | main.go:156-165 | a run of fork calls returns one error slot per call and never clears a set flag |
| Restart.ForkedSpawnsNothing | main.go:161-163 | once the flag is set, any number of further calls spawn nothing and all return the already-forked error |
| Restart.SingleFlight | main.go:156-195 | from the initial flag, a run of calls attempts exactly one spawn, in the first call; the flag stays set even when that start failed; every later call returns the already-forked error |
| Listener.GetListener | main.go:127-153 | success exactly when the bind or the rebuild succeeds; the only effects are binding the given address, opening descriptor 3 and signalling the parent; a child never binds anything and rebuilds from descriptor 3; a non-child binds the given address and neither opens an inherited descriptor nor signals; there is exactly one bind, or one open followed by one signal; the parent is signalled exactly once when the child's rebuild succeeded and never otherwise, always with SIGTSTP and always after descriptor 3 was opened |
| Listener.HandOffTerminates | main.go:143 | the signal a successor sends its parent is one the parent's handler dispatches to termination |
| Lifecycle.Boot | main.go:66-77 | startup succeeds exactly when acquisition does, and then serves on an inherited or a freshly bound listener, with the flag clear; a child's startup is exactly the open of descriptor 3 followed by one SIGTSTP to the parent, an original's startup is exactly its one bind |
| Lifecycle.Shutdown | main.go:198-209 | shutdown closes the listener, then exits with status 1, and changes nothing else |
| Lifecycle.ShutdownIgnoresClose | main.go:201-209 | a failing close leads to the same exit as a successful one |
| Lifecycle.Step | main.go:98-123 | SIGHUP on a forked process changes nothing; SIGHUP on an unforked process keeps it serving, sets the flag and appends exactly one spawn of the program path with the rebuilt arguments and the listener; SIGTSTP ends the process with close and exit 1 and the flag untouched; every other signal leaves the process unchanged |
| Lifecycle.Run | main.go:95-125 | the handler loop keeps the argument vector and listener, only extends the trace, never clears the flag, and ends either serving or exited with status 1; an exited process handles nothing |
| Lifecycle.RunQuietSignals | main.go:106-123 | a trace without SIGHUP and SIGTSTP leaves the process exactly as it was |
| Lifecycle.RunSingleFlight | main.go:156-165 | over any trace of signals at most one spawn is attempted, and none by a process that already forked |
| Lifecycle.StepSpawns | main.go:99-104 | one handled signal attempts at most one spawn, none after the flag is set, and leaves the flag alone when it spawns nothing |
| Lifecycle.RunWithoutHangup | main.go:98-123 | without SIGHUP the flag does not change and nothing is spawned |
| Lifecycle.RunTerminatesIffStop | main.go:118-120 | a serving process exits if and only if some delivered signal is SIGTSTP, and then with status 1 |
| Lifecycle.RunStopsAtFirstStop | main.go:198-209 | signals after the first SIGTSTP are never handled; the trace is the trace before that signal, then close and exit 1 |
| Lifecycle.HandOff | main.go:143-188 | SIGHUP on a serving, unforked process attempts one spawn that carries the parent's listener and one marker; when the start succeeded and the child's rebuild from descriptor 3 succeeds, a successor booted as a child finds that listener at descriptor 3 (extra file 0), and its signal to the parent shuts the parent down with status 1; the child role is an input here (see Left out) |

## Left out

- Sockets and descriptors are abstract. `net.Listen`, `net.FileListener`, `os.NewFile(3, "")` and `TCPListener.File` are outcomes or events. The ignored error of `File()` is not modelled.
- Process control is recorded only as events. This covers `exec.Command`, its stdout/stderr wiring, `syscall.Kill`, `Getpid`/`Getppid` and `os.Exit`. Their own failures are not modelled: `Kill`'s result is ignored by the program.
- Concurrency is not modelled. The signal goroutine, `signal.Notify`, the channel and the read-write lock are left out. The locked section of `fork` is one atomic step. A signal that arrives before the listener is acquired is not modelled.
- Signal registration (main.go:32-39) is not modelled. A `Delivery` is a signal the handler receives on its channel, and `Run`, `RunQuietSignals` and the other trace lemmas are about those signals. Only SIGHUP, SIGUSR1, SIGUSR2 and SIGTSTP are registered, so the SIGINT and SIGTERM cases and the `default` branch of the switch are unreachable in the running program. Every other signal gets the Go runtime's default action, for example termination on SIGINT or SIGTERM, not the `Ignore` the model gives it.
- Logging is not recorded as an effect, so the "report-only" and ignored signals change nothing at all.
- Lifecycle.Boot: after a failed acquisition the program logs and calls `server.Serve` on a nil listener. The model returns the error and does not model the process past that point.
- Restart.Fork: the type assertion `listener.(*net.TCPListener)` would fail on a nil listener. The model always has a listener, because a process only handles signals after a successful boot.
- The HTTP server, its handler, the read timeout and the accept loop are I/O outside this model.
- Flag parsing (main.go:46-48) is not modelled. `isChild` is an input to `GetListener` and `Boot`, and `HandOff` assumes the successor runs as a child.
- Lifecycle.HandOff: the successor reaches the child role only if no non-flag argument comes before the marker. Go's `flag.Parse` stops at the first non-flag argument. `Rebuild(["prog", "foo"])` is `["foo", "-continue"]`, so that successor parses `isChild` as false. It then tries to bind the address the parent still holds (main.go:146). That fails, so no SIGTSTP is sent. The parent keeps serving with its flag set and can never restart again.
- The commented-out `process`/`init`/`loop` code at the end of main.go is not part of the program.
- The program guards the copy loop with `len(os.Args) > 1`. With exactly one argument the loop has nothing to copy anyway, so the model keeps the guard in the loop method only.
- Lifecycle.Shutdown: the exit status is not guaranteed to be 1. `listener.Close()` (main.go:201) makes `server.Serve` (main.go:77) return, and `main` then returns, which ends the process with status 0. That races with `os.Exit(1)` (main.go:209). The model follows the signal handler and always records status 1.
- Lifecycle.Run: signals can be lost. The signal channel is unbuffered (main.go:40), and delivery never blocks. A SIGHUP or SIGTSTP that arrives while the handler is not waiting at main.go:96 is dropped. The model handles every delivered signal.

=== FILE: args.dfy ===
/**
 The argument list a running process hands to its successor. The program
 path is kept; the arguments after it are copied up to, not including, the
 first exact "-continue"; then one "-continue" is appended, which is what
 tells the successor that it is a child and must inherit the listener.
 */
module SuccessorArgs {
  import opened Seqs

  /** The command-line marker of a successor process. */
  const Marker: string := "-continue"

  /**
   The successor's arguments (without the program path) for a process whose
   full argument vector, program path first, is `osArgs`.
   */
  function Rebuild(osArgs: seq<string>): (args: seq<string>)
    requires |osArgs| >= 1
    ensures |args| >= 1 && args[|args| - 1] == Marker
    ensures Count(args, Marker) == 1
    ensures var kept := args[..|args| - 1];
      && kept <= osArgs[1..]
      && Marker !in kept
      && (|kept| == |osArgs| - 1 || osArgs[1 + |kept|] == Marker)
  {
    var kept := TakeUntil(osArgs[1..], Marker);
    CountAppend(kept, [Marker], Marker);
    assert (kept + [Marker])[..|kept|] == kept;
    kept + [Marker]
  }

  /**
   The copy loop as the program writes it: walk the arguments after the
   program path, stop at the first marker, then append one marker.
   */
  method BuildSuccessorArgs(osArgs: seq<string>) returns (path: string, args: seq<string>)
    requires |osArgs| >= 1
    ensures path == osArgs[0]
    ensures args == Rebuild(osArgs)
  {
    path := osArgs[0];
    args := [];
    var i := 1;
    if |osArgs| > 1 {
      while i < |osArgs|
        invariant 1 <= i <= |osArgs|
        invariant args == osArgs[1..i]
        invariant Marker !in args
      {
        if osArgs[i] == Marker {
          break;
        }
        args := args + [osArgs[i]];
        i := i + 1;
      }
    }
    assert args <= osArgs[1..];
    TakeUntilUnique(osArgs[1..], args, Marker);
    args := args + [Marker];
  }

  /** Any prefix of the original arguments without a marker is kept whole. */
  lemma RebuildKeepsLongestPrefix(osArgs: seq<string>, p: seq<string>)
    requires |osArgs| >= 1
    requires p <= osArgs[1..]
    requires Marker !in p
    ensures p <= Rebuild(osArgs)[..|Rebuild(osArgs)| - 1]
  {
    TakeUntilLongest(osArgs[1..], p, Marker);
  }

  /** Arguments after the first marker never reach the successor. */
  lemma RebuildDropsAfterMarker(osArgs: seq<string>, k: nat)
    requires 1 <= k < |osArgs|
    requires osArgs[k] == Marker
    ensures |Rebuild(osArgs)| <= k
  {
  }

  /** Rebuilding the successor's own vector gives the same arguments again. */
  lemma RebuildIdempotent(osArgs: seq<string>)
    requires |osArgs| >= 1
    ensures Rebuild([osArgs[0]] + Rebuild(osArgs)) == Rebuild(osArgs)
  {
    var args := Rebuild(osArgs);
    var kept := args[..|args| - 1];
    assert args == kept + [Marker];
    var next := [osArgs[0]] + args;
    assert next[1..] == kept + [Marker];
    TakeUntilUnique(next[1..], kept, Marker);
  }

  /**
   The argument vector of the `n`-th generation of a restart chain started
   with `osArgs`; the successor is started with the same program path.
   */
  function Generation(osArgs: seq<string>, n: nat): (v: seq<string>)
    requires |osArgs| >= 1
    ensures |v| >= 1 && v[0] == osArgs[0]
  {
    if n == 0 then osArgs
    else
      var prev := Generation(osArgs, n - 1);
      [prev[0]] + Rebuild(prev)
  }

  /** One restart: a generation is the program path and the previous one rebuilt. */
  lemma GenerationNext(osArgs: seq<string>, n: nat)
    requires |osArgs| >= 1
    requires n >= 1
    ensures Generation(osArgs, n) == [osArgs[0]] + Rebuild(Generation(osArgs, n - 1))
  {
  }

  /** Every generation after the first runs with the first successor's vector. */
  lemma {:induction false} GenerationStable(osArgs: seq<string>, n: nat)
    requires |osArgs| >= 1
    requires n >= 1
    ensures Generation(osArgs, n) == [osArgs[0]] + Rebuild(osArgs)
  {
    GenerationNext(osArgs, n);
    if n > 1 {
      GenerationStable(osArgs, n - 1);
      RebuildIdempotent(osArgs);
      calc {
        Generation(osArgs, n);
        [osArgs[0]] + Rebuild(Generation(osArgs, n - 1));
        [osArgs[0]] + Rebuild([osArgs[0]] + Rebuild(osArgs));
        [osArgs[0]] + Rebuild(osArgs);
      }
    }
  }

  /**
   Across any number of restarts the argument vector keeps the length of the
   first successor's, and the marker occurs in it exactly once.
   */
  lemma GenerationMarkerOnce(osArgs: seq<string>, n: nat)
    requires |osArgs| >= 1
    requires n >= 1
    ensures |Generation(osArgs, n)| == |Generation(osArgs, 1)|
    ensures Count(Generation(osArgs, n)[1..], Marker) == 1
  {
    GenerationStable(osArgs, n);
    assert Generation(osArgs, n)[1..] == Rebuild(osArgs);
  }
}

=== FILE: effects.dfy ===
/**
 The vocabulary shared by every part of the restart protocol: process-control
 signals and what the signal handler does with each, the outcome of an
 operating-system call the model cannot see, the listening socket, the
 description of a successor process, and the effects a process leaves on its
 trace.
 */
module Effects {

  /** A signal is its number; the values are those of Linux on x86-64. */
  type Signal = nat

  const SIGHUP: Signal := 1
  const SIGINT: Signal := 2
  const SIGUSR1: Signal := 10
  const SIGUSR2: Signal := 12
  const SIGTERM: Signal := 15
  const SIGTSTP: Signal := 20

  /** What the signal handler does with a received signal. */
  datatype SignalAction =
    | Restart     // spawn a successor (fork)
    | ReportOnly  // a case of its own in the handler that only logs
    | Terminate   // close the listener and exit
    | Ignore      // the default case: logged as "nothing i care about"

  /** The handler's dispatch, case by case, in the order it tests them. */
  function Action(sig: Signal): (a: SignalAction)
    ensures a == Restart <==> sig == SIGHUP
    ensures a == Terminate <==> sig == SIGTSTP
    ensures a == ReportOnly <==> sig in {SIGUSR1, SIGUSR2, SIGINT, SIGTERM}
  {
    if sig == SIGHUP then Restart
    else if sig == SIGUSR1 then ReportOnly
    else if sig == SIGUSR2 then ReportOnly
    else if sig == SIGINT then ReportOnly
    else if sig == SIGTERM then ReportOnly
    else if sig == SIGTSTP then Terminate
    else Ignore
  }

  /** Whether an operating-system call the model cannot look into succeeded. */
  datatype Outcome = Succeeded | Failed

  datatype Option<+T> = None | Some(value: T)

  datatype Result<+T, +E> = Ok(value: T) | Err(error: E)

  /**
   The listening socket: either bound afresh to an address, or rebuilt from a
   descriptor number inherited from the parent process.
   */
  datatype ListenerHandle = Fresh(addr: string) | Inherited(fd: nat)

  /** The descriptor slot at which a successor finds the inherited listener. */
  const InheritedFd: nat := 3

  /**
   A child process sees entry `i` of the spawner's extra-files list as
   descriptor `3 + i`, after standard input, output and error.
   */
  function ChildFd(i: nat): (fd: nat)
  {
    3 + i
  }

  /** What a spawn is asked to start: program path, arguments, extra files. */
  datatype SuccessorSpec = SuccessorSpec(path: string, args: seq<string>, extraFiles: seq<ListenerHandle>)

  /** The exit status of every shutdown. */
  const ShutdownStatus: int := 1

  /** An externally visible effect, in the order a process performs them. */
  datatype Event =
    | Listen(addr: string)            // bind a fresh listening socket
    | OpenInherited(fd: nat)          // rebuild a listener from an inherited descriptor
    | SignalParent(sig: Signal)       // send a signal to the parent process
    | Spawn(spec: SuccessorSpec)      // attempt to start a successor process
    | CloseListener                   // close the listening socket
    | Exit(status: int)               // end the process

  predicate IsSpawn(e: Event) { e.Spawn? }

  predicate IsSignalParent(e: Event) { e.SignalParent? }
}

=== FILE: lifecycle.dfy ===
/**
 The life of one process: boot (acquire the listener, then serve), the
 signal handler that takes signals one at a time in arrival order, and
 shutdown (close the listener, exit with status 1). Once the process has
 exited it handles no more signals.
 */
module Lifecycle {
  import opened Seqs
  import opened Effects
  import SuccessorArgs
  import opened Restart
  import opened Listener

  /** The address the service listens on, the same in every generation. */
  const ServerAddr: string := ":8888"

  datatype Phase = Serving | Terminated(status: int)

  /**
   One process: its argument vector, its listener, the restart flag, whether
   it still serves, and the effects it has performed so far.
   */
  datatype Process = Process(
    osArgs: seq<string>,
    listener: ListenerHandle,
    restart: RestartState,
    phase: Phase,
    trace: seq<Event>)

  /**
   A delivered signal, together with what the calls its handler makes would
   report: starting a successor (for SIGHUP) and closing the listener (for
   SIGTSTP).
   */
  datatype Delivery = Delivery(sig: Signal, start: Outcome, close: Outcome)

  /**
   Startup: acquire the listener for `ServerAddr` in the role given by
   `isChild`; on success the process serves with a fresh restart flag.
   */
  function Boot(isChild: bool, osArgs: seq<string>, outcome: Outcome): (r: Result<Process, AcquireError>)
    requires |osArgs| >= 1
    ensures r.Ok? <==> outcome == Succeeded
    ensures r.Ok? ==>
      && r.value.phase == Serving
      && !r.value.restart.forked
      && r.value.osArgs == osArgs
      && r.value.listener == (if isChild then Inherited(InheritedFd) else Fresh(ServerAddr))
      && CountIf(r.value.trace, IsSignalParent) == (if isChild then 1 else 0)
    ensures r.Ok? ==> forall e <- r.value.trace :: e.Listen? || e.OpenInherited? || e.SignalParent?
    // a successor never binds; an original records exactly its one bind
    ensures r.Ok? && isChild ==> forall e <- r.value.trace :: !e.Listen?
    ensures r.Ok? && !isChild ==> r.value.trace == [Listen(ServerAddr)]
    ensures r.Ok? && isChild ==> r.value.trace == [OpenInherited(InheritedFd), SignalParent(HandOffSignal)]
  {
    var a := GetListener(isChild, ServerAddr, outcome);
    match a.listener
    case Err(e) => Err(e)
    case Ok(l) => Ok(Process(osArgs, l, Initial, Serving, a.events))
  }

  /**
   Close the listener and exit with status 1. The result of the close is
   only logged, so it does not change what happens.
   */
  function Shutdown(p: Process, close: Outcome): (q: Process)
    ensures q.phase == Terminated(ShutdownStatus)
    ensures q.trace == p.trace + [CloseListener, Exit(ShutdownStatus)]
    ensures q.osArgs == p.osArgs && q.listener == p.listener && q.restart == p.restart
  {
    p.(phase := Terminated(ShutdownStatus), trace := p.trace + [CloseListener, Exit(ShutdownStatus)])
  }

  /** Shutdown ends the same way whether or not closing the listener failed. */
  lemma ShutdownIgnoresClose(p: Process)
    ensures Shutdown(p, Succeeded) == Shutdown(p, Failed)
    ensures Shutdown(p, Failed).phase == Terminated(1)
  {
  }

  /** The signal handler's response to one signal while the process serves. */
  function Step(p: Process, d: Delivery): (q: Process)
    requires p.phase == Serving
    requires |p.osArgs| >= 1
    ensures q.osArgs == p.osArgs && q.listener == p.listener
    ensures p.trace <= q.trace
    ensures d.sig == SIGHUP ==>
      && q.phase == Serving
      && q.restart.forked
      && CountIf(q.trace[|p.trace|..], IsSpawn) == (if p.restart.forked then 0 else 1)
    // a repeated SIGHUP changes nothing; a first one appends exactly fork's spawn
    ensures d.sig == SIGHUP && p.restart.forked ==> q == p
    ensures d.sig == SIGHUP && !p.restart.forked ==>
      q.trace == p.trace + [Spawn(SuccessorSpec(p.osArgs[0], SuccessorArgs.Rebuild(p.osArgs), [p.listener]))]
    ensures d.sig == SIGTSTP ==>
      && q.phase == Terminated(ShutdownStatus)
      && q.trace == p.trace + [CloseListener, Exit(ShutdownStatus)]
      && q.restart == p.restart
    ensures d.sig != SIGHUP && d.sig != SIGTSTP ==> q == p
  {
    match Action(d.sig)
    case Restart =>
      var f := Fork(p.restart, p.listener, p.osArgs, d.start);
      assert (p.trace + f.events)[|p.trace|..] == f.events;
      p.(restart := f.state, trace := p.trace + f.events)
    case Terminate =>
      Shutdown(p, d.close)
    case ReportOnly => p
    case Ignore => p
  }

  /** The handler's loop over the signals delivered in order; it stops at exit. */
  function Run(p: Process, ds: seq<Delivery>): (q: Process)
    requires |p.osArgs| >= 1
    ensures q.osArgs == p.osArgs && q.listener == p.listener
    ensures p.trace <= q.trace
    ensures p.restart.forked ==> q.restart.forked
    ensures p.phase.Terminated? ==> q == p
    ensures p.phase == Serving ==> q.phase == Serving || q.phase == Terminated(ShutdownStatus)
    decreases |ds|
  {
    if |ds| == 0 || p.phase.Terminated? then p
    else Run(Step(p, ds[0]), ds[1..])
  }

  /** Signals that neither restart nor stop the process leave it exactly as it was. */
  lemma {:induction false} RunQuietSignals(p: Process, ds: seq<Delivery>)
    requires |p.osArgs| >= 1
    requires forall i :: 0 <= i < |ds| ==> ds[i].sig != SIGHUP && ds[i].sig != SIGTSTP
    ensures Run(p, ds) == p
    decreases |ds|
  {
    if |ds| > 0 && p.phase == Serving {
      RunQuietSignals(p, ds[1..]);
    }
  }

  /**
   Over any trace of signals, a process attempts at most one spawn, and none
   once it has forked.
   */
  lemma {:induction false} RunSingleFlight(p: Process, ds: seq<Delivery>)
    requires |p.osArgs| >= 1
    ensures var q := Run(p, ds);
      CountIf(q.trace[|p.trace|..], IsSpawn) <= (if p.restart.forked then 0 else 1)
    decreases |ds|
  {
    var q := Run(p, ds);
    if |ds| == 0 || p.phase.Terminated? {
      assert q.trace[|p.trace|..] == [];
    } else {
      var p1 := Step(p, ds[0]);
      assert q == Run(p1, ds[1..]);
      RunSingleFlight(p1, ds[1..]);
      var now := p1.trace[|p.trace|..];
      var later := q.trace[|p1.trace|..];
      assert q.trace[|p.trace|..] == now + later;
      CountIfAppend(now, later, IsSpawn);
      StepSpawns(p, ds[0]);
    }
  }

  /** One handled signal spawns at most once, and a spawn leaves the flag set. */
  lemma StepSpawns(p: Process, d: Delivery)
    requires p.phase == Serving
    requires |p.osArgs| >= 1
    ensures var q := Step(p, d);
      && CountIf(q.trace[|p.trace|..], IsSpawn) <= (if p.restart.forked then 0 else 1)
      && (CountIf(q.trace[|p.trace|..], IsSpawn) == 0 ==> q.restart.forked == p.restart.forked)
  {
    var q := Step(p, d);
    if d.sig == SIGTSTP {
      assert q.trace[|p.trace|..] == [CloseListener, Exit(ShutdownStatus)];
    } else if d.sig != SIGHUP {
      assert q.trace[|p.trace|..] == [];
    }
  }

  /** Only SIGHUP changes the restart flag or spawns. */
  lemma {:induction false} RunWithoutHangup(p: Process, ds: seq<Delivery>)
    requires |p.osArgs| >= 1
    requires forall i :: 0 <= i < |ds| ==> ds[i].sig != SIGHUP
    ensures Run(p, ds).restart == p.restart
    ensures CountIf(Run(p, ds).trace[|p.trace|..], IsSpawn) == 0
    decreases |ds|
  {
    var q := Run(p, ds);
    if |ds| == 0 || p.phase.Terminated? {
      assert q.trace[|p.trace|..] == [];
    } else {
      var p1 := Step(p, ds[0]);
      RunWithoutHangup(p1, ds[1..]);
      var now := p1.trace[|p.trace|..];
      var later := q.trace[|p1.trace|..];
      assert q.trace[|p.trace|..] == now + later;
      CountIfAppend(now, later, IsSpawn);
      if ds[0].sig == SIGTSTP {
        assert now == [CloseListener, Exit(ShutdownStatus)];
      }
    }
  }

  /** A serving process exits if and only if a SIGTSTP is delivered, and then with status 1. */
  lemma {:induction false} RunTerminatesIffStop(p: Process, ds: seq<Delivery>)
    requires |p.osArgs| >= 1
    requires p.phase == Serving
    ensures Run(p, ds).phase.Terminated? <==> exists i :: 0 <= i < |ds| && ds[i].sig == SIGTSTP
    ensures Run(p, ds).phase.Terminated? ==> Run(p, ds).phase.status == 1
    decreases |ds|
  {
    if |ds| > 0 {
      var p1 := Step(p, ds[0]);
      if ds[0].sig != SIGTSTP {
        RunTerminatesIffStop(p1, ds[1..]);
        if exists i :: 0 <= i < |ds| && ds[i].sig == SIGTSTP {
          var i :| 0 <= i < |ds| && ds[i].sig == SIGTSTP;
          assert ds[1..][i - 1].sig == SIGTSTP;
        }
      }
    }
  }

  /**
   Nothing after the first SIGTSTP is handled: the run equals the run cut
   just after it, and its trace ends with the close and the exit.
   */
  lemma {:induction false} RunStopsAtFirstStop(p: Process, ds: seq<Delivery>, k: nat)
    requires |p.osArgs| >= 1
    requires p.phase == Serving
    requires k < |ds| && ds[k].sig == SIGTSTP
    requires forall i :: 0 <= i < k ==> ds[i].sig != SIGTSTP
    ensures Run(p, ds) == Run(p, ds[..k + 1])
    ensures Run(p, ds).phase == Terminated(ShutdownStatus)
    ensures Run(p, ds).trace == Run(p, ds[..k]).trace + [CloseListener, Exit(ShutdownStatus)]
    decreases k
  {
    var p1 := Step(p, ds[0]);
    if k == 0 {
      assert Run(p1, ds[1..]) == p1;
      assert Run(p1, ds[..1][1..]) == p1;
    } else {
      var rest := ds[1..];
      assert p1.phase == Serving;
      assert rest[k - 1].sig == SIGTSTP;
      assert forall i :: 0 <= i < k - 1 ==> rest[i].sig == ds[i + 1].sig;
      RunStopsAtFirstStop(p1, rest, k - 1);
      assert ds[..k + 1][1..] == rest[..k];
      assert ds[..k][1..] == rest[..k - 1];
      assert Run(p, ds) == Run(p1, rest);
      assert Run(p, ds[..k + 1]) == Run(p1, rest[..k]);
      assert Run(p, ds[..k]) == Run(p1, rest[..k - 1]);
    }
  }

  /**
   A restart hand-off from start to finish. A serving process that has not
   forked receives SIGHUP and attempts one spawn, carrying its listener and
   one marker. When the start succeeded, the successor runs as a child and
   its rebuild from descriptor 3 succeeds, it finds the parent's listener in
   its descriptor slot and tells the parent to stop. That signal shuts the
   parent down with status 1.
   */
  lemma HandOff(p: Process, start: Outcome, close: Outcome)
    requires |p.osArgs| >= 1
    requires p.phase == Serving && !p.restart.forked
    ensures var q := Step(p, Delivery(SIGHUP, start, close));
      && q.phase == Serving
      && |q.trace| == |p.trace| + 1
      && q.trace[|p.trace|].Spawn?
      && var spec := q.trace[|p.trace|].spec;
      && spec.extraFiles[0] == p.listener
      && Count(spec.args, SuccessorArgs.Marker) == 1
      && (start == Succeeded ==>
        var child := Boot(true, [spec.path] + spec.args, Succeeded);
        && child.Ok?
        && child.value.listener == Inherited(ChildFd(0))
        && CountIf(child.value.trace, IsSignalParent) == 1
        && forall e <- child.value.trace :: e.SignalParent? ==>
             Step(q, Delivery(e.sig, start, close)).phase == Terminated(ShutdownStatus))
  {
    var q := Step(p, Delivery(SIGHUP, start, close));
    var f := Fork(p.restart, p.listener, p.osArgs, start);
    assert q.trace == p.trace + f.events;
    var spec := q.trace[|p.trace|].spec;
    var child := Boot(true, [spec.path] + spec.args, Succeeded);
    assert child.value.trace == GetListener(true, ServerAddr, Succeeded).events;
  }
}

=== FILE: listener.dfy ===
/**
 Listener acquisition, which depends on the process's role. An original
 process binds a fresh socket to the configured address. A successor rebuilds
 the listener from inherited descriptor 3. Only once that has worked does it
 tell its parent to shut down, with SIGTSTP.
 */
module Listener {
  import opened Seqs
  import opened Effects

  datatype AcquireError =
    | ListenError        // binding a fresh socket failed
    | FileListenerError  // the inherited descriptor is not a usable listener

  /** The listener or the error, and the effects of acquiring it. */
  datatype Acquisition = Acquisition(listener: Result<ListenerHandle, AcquireError>, events: seq<Event>)

  /** The signal a successor sends its parent once it holds the listener. */
  const HandOffSignal: Signal := SIGTSTP

  /**
   Acquire the listener for address `laddr`. `isChild` is the role taken from
   the command line, and `outcome` is what the bind or the rebuild reports.
   */
  function GetListener(isChild: bool, laddr: string, outcome: Outcome): (a: Acquisition)
    ensures a.listener.Ok? <==> outcome == Succeeded
    ensures a.listener.Err? ==> a.listener.error == (if isChild then FileListenerError else ListenError)
    ensures a.listener.Ok? ==> a.listener.value == (if isChild then Inherited(InheritedFd) else Fresh(laddr))
    // a successor never binds; an original never touches an inherited descriptor
    ensures isChild <==> Listen(laddr) !in a.events
    ensures isChild <==> OpenInherited(InheritedFd) in a.events
    // acquisition binds, opens descriptor 3 or signals the parent, and nothing else
    ensures forall e <- a.events :: e == Listen(laddr) || e == OpenInherited(InheritedFd) || e == SignalParent(HandOffSignal)
    ensures isChild ==> forall e <- a.events :: !e.Listen?
    ensures !isChild ==> forall e <- a.events :: !e.OpenInherited? && !e.SignalParent?
    // one bind, or one open followed by one signal when the rebuild worked
    ensures |a.events| == (if isChild && outcome == Succeeded then 2 else 1)
    // the parent is told to stop exactly once, and only after a successful rebuild
    ensures CountIf(a.events, IsSignalParent) == (if isChild && outcome == Succeeded then 1 else 0)
    ensures forall i :: 0 <= i < |a.events| && a.events[i].SignalParent? ==>
      && a.events[i].sig == HandOffSignal
      && exists j :: 0 <= j < i && a.events[j] == OpenInherited(InheritedFd)
  {
    if isChild then
      match outcome
      case Failed =>
        Acquisition(Err(FileListenerError), [OpenInherited(InheritedFd)])
      case Succeeded =>
        Acquisition(Ok(Inherited(InheritedFd)), [OpenInherited(InheritedFd), SignalParent(HandOffSignal)])
    else
      match outcome
      case Failed => Acquisition(Err(ListenError), [Listen(laddr)])
      case Succeeded => Acquisition(Ok(Fresh(laddr)), [Listen(laddr)])
  }

  /** The signal a successor sends is one its parent's handler treats as Terminate. */
  lemma HandOffTerminates(laddr: string)
    ensures forall e <- GetListener(true, laddr, Succeeded).events :: e.SignalParent? ==> Action(e.sig) == Terminate
  {
  }
}

=== FILE: restart.dfy ===
/**
 The restart coordinator. A process-wide flag, false at start, records that
 this process has already tried to spawn a successor. The check-and-set runs
 under a lock, so it is modelled as one atomic step. The flag is set before
 the spawn is attempted and is never cleared, so a failed spawn still uses
 up the process's one restart.
 */
module Restart {
  import opened Seqs
  import opened Effects
  import SuccessorArgs

  datatype RestartState = RestartState(forked: bool)

  /** The flag's value when the process starts. */
  const Initial := RestartState(false)

  datatype ForkError =
    | AlreadyForked   // another call already forked: nothing is spawned
    | StartFailed     // the successor could not be started

  /** The new flag, the error returned and the effects of one fork call. */
  datatype ForkStep = ForkStep(state: RestartState, err: Option<ForkError>, events: seq<Event>)

  /**
   One fork call with the current `listener` and argument vector `osArgs`;
   `start` is what starting the successor process reports.
   */
  function Fork(st: RestartState, listener: ListenerHandle, osArgs: seq<string>, start: Outcome): (r: ForkStep)
    requires |osArgs| >= 1
    ensures r.state.forked
    ensures st.forked ==> r.err == Some(AlreadyForked) && r.events == []
    ensures !st.forked ==>
      && |r.events| == 1 && r.events[0].Spawn?
      && (r.err == None <==> start == Succeeded)
      && (r.err != None ==> r.err == Some(StartFailed))
    ensures forall e <- r.events :: e.Spawn? ==>
      && e.spec.path == osArgs[0]
      && e.spec.args == SuccessorArgs.Rebuild(osArgs)
      && |e.spec.extraFiles| == 1
      && e.spec.extraFiles[0] == listener
  {
    if st.forked then
      ForkStep(st, Some(AlreadyForked), [])
    else
      var spec := SuccessorSpec(osArgs[0], SuccessorArgs.Rebuild(osArgs), [listener]);
      var err := if start == Succeeded then None else Some(StartFailed);
      ForkStep(RestartState(true), err, [Spawn(spec)])
  }

  /** The flag, errors and effects after a run of fork calls. */
  datatype ForkRun = ForkRun(state: RestartState, errs: seq<Option<ForkError>>, events: seq<Event>)

  /** Fork calls one after another; `starts[i]` is what call `i`'s start would report. */
  function ForkAll(st: RestartState, listener: ListenerHandle, osArgs: seq<string>, starts: seq<Outcome>): (r: ForkRun)
    requires |osArgs| >= 1
    ensures |r.errs| == |starts|
    ensures st.forked ==> r.state.forked
    decreases |starts|
  {
    if |starts| == 0 then
      ForkRun(st, [], [])
    else
      var f := Fork(st, listener, osArgs, starts[0]);
      var rest := ForkAll(f.state, listener, osArgs, starts[1..]);
      ForkRun(rest.state, [f.err] + rest.errs, f.events + rest.events)
  }

  /** A process that has forked never spawns again, whatever the outcomes. */
  lemma {:induction false} ForkedSpawnsNothing(st: RestartState, listener: ListenerHandle, osArgs: seq<string>, starts: seq<Outcome>)
    requires |osArgs| >= 1
    requires st.forked
    ensures ForkAll(st, listener, osArgs, starts).events == []
    ensures ForkAll(st, listener, osArgs, starts).state.forked
    ensures forall i :: 0 <= i < |starts| ==> ForkAll(st, listener, osArgs, starts).errs[i] == Some(AlreadyForked)
    decreases |starts|
  {
    if |starts| > 0 {
      ForkedSpawnsNothing(st, listener, osArgs, starts[1..]);
    }
  }

  /**
   Single flight: from a fresh flag, a nonempty run of fork calls attempts
   exactly one spawn, in the first call; the flag ends set even when that
   spawn failed, and every later call returns AlreadyForked.
   */
  lemma {:induction false} SingleFlight(listener: ListenerHandle, osArgs: seq<string>, starts: seq<Outcome>)
    requires |osArgs| >= 1
    requires |starts| >= 1
    ensures var r := ForkAll(Initial, listener, osArgs, starts);
      && r.state.forked
      && CountIf(r.events, IsSpawn) == 1
      && r.events == Fork(Initial, listener, osArgs, starts[0]).events
      && (r.errs[0] == None <==> starts[0] == Succeeded)
      && forall i :: 1 <= i < |starts| ==> r.errs[i] == Some(AlreadyForked)
  {
    var f := Fork(Initial, listener, osArgs, starts[0]);
    ForkedSpawnsNothing(f.state, listener, osArgs, starts[1..]);
    assert f.events + [] == f.events;
  }
}

=== FILE: seqs.dfy ===
/**
 Small facts about sequences that the rest of the model leans on: counting
 occurrences, and the longest prefix that stops before a given element.
 */
module Seqs {

  /** The test "equals `x`", as a predicate value. */
  function IsValue<T(==)>(x: T): (p: T -> bool)
  {
    y => y == x
  }

  /** Number of positions of `s` holding `x`. */
  function Count<T(==)>(s: seq<T>, x: T): (n: nat)
    ensures n <= |s|
    ensures n == 0 <==> x !in s
  {
    CountIf(s, IsValue(x))
  }

  lemma CountAppend<T>(a: seq<T>, b: seq<T>, x: T)
    ensures Count(a + b, x) == Count(a, x) + Count(b, x)
  {
    CountIfAppend(a, b, IsValue(x));
  }

  /** Number of elements of `s` that satisfy `p`. */
  function CountIf<T>(s: seq<T>, p: T -> bool): (n: nat)
    ensures n <= |s|
    ensures n == 0 <==> forall i :: 0 <= i < |s| ==> !p(s[i])
  {
    if |s| == 0 then 0
    else
      assert forall i :: 1 <= i < |s| ==> s[i] == s[1..][i - 1];
      (if p(s[0]) then 1 else 0) + CountIf(s[1..], p)
  }

  lemma {:induction false} CountIfAppend<T>(a: seq<T>, b: seq<T>, p: T -> bool)
    ensures CountIf(a + b, p) == CountIf(a, p) + CountIf(b, p)
  {
    if |a| == 0 {
      assert a + b == b;
    } else {
      assert (a + b)[1..] == a[1..] + b;
      CountIfAppend(a[1..], b, p);
    }
  }

  /**
   The longest prefix of `s` in which `stop` does not occur: it ends either at
   the end of `s` or just before the first `stop`.
   */
  function TakeUntil<T(==)>(s: seq<T>, stop: T): (r: seq<T>)
    ensures r <= s
    ensures stop !in r
    ensures |r| == |s| || s[|r|] == stop
  {
    if |s| == 0 || s[0] == stop then [] else [s[0]] + TakeUntil(s[1..], stop)
  }

  /** Any prefix with the three properties above is `TakeUntil(s, stop)`. */
  lemma TakeUntilUnique<T>(s: seq<T>, p: seq<T>, stop: T)
    requires p <= s
    requires stop !in p
    requires |p| == |s| || s[|p|] == stop
    ensures p == TakeUntil(s, stop)
  {
  }

  /** No prefix of `s` free of `stop` is longer than `TakeUntil(s, stop)`. */
  lemma TakeUntilLongest<T>(s: seq<T>, p: seq<T>, stop: T)
    requires p <= s
    requires stop !in p
    ensures |p| <= |TakeUntil(s, stop)|
    ensures p <= TakeUntil(s, stop)
  {
  }
}
